=== FILE: README.md ===
# Presentation timer: a Dafny model of its countdown core

The presentation timer is a single browser component, `PresentationTimer`. It counts a
speaker's time down from a chosen number of minutes and shows the time as `MM:SS`. It
colours the digits, the page and a progress bar by how much time is left, and rings a bell
when time runs out. The duration comes from preset buttons (5, 10, 15, 20 and 30 minutes), a
custom-minutes input (1 to 99), or the `time` query parameter of the page address. Setting a
preset or a custom value writes that parameter back.

This project models the core of that component apart from the markup and browser calls:

- `Wrappers.dfy`: `Option`, which stands for JavaScript's `NaN` and for an absent parameter.
- `JsNumber.dfy`: `parseInt(s, 10)` as ECMA-262, section 19.2.5 defines it, and `toString()`
  on a non-negative integer. The proofs show which strings parse and to what, and that
  `parseInt(n.toString(), 10) == n`.
- `Timer.dfy`: the `TimerState` record and every record-to-record update the component applies
  to it: the interval tick, start/pause, reset, a preset or custom duration, and the
  query-parameter effect. It also holds the duration parsing (`getInitialMinutes`), the re-run
  of that effect after updates that change what it depends on, and runs of ticks. It proves the state invariant (`totalSeconds` a whole number of minutes from 1 to 99,
  `0 <= remainingSeconds <= totalSeconds`, finished exactly when nothing remains, running only
  while something remains). It also proves that the bell is requested exactly once per
  countdown.
- `Display.dfy`: `formatTime`, the colour tiers of the digits, the background and the progress
  bar, and the bar's width.
- `Component.dfy`: the class `PresentationTimer` with the component's mutable state (`timer`,
  `customMinutes`, `soundEnabled`), the `time` parameter of the current address (`timeParam`),
  and one method per handler. The ghost field `alertRequests` counts bell requests that pass the
  sound switch. Two client scenarios at the end, `ExpiryScenario` and `DeferredQueryScenario`,
  are sequences of handler calls whose assertions the verifier proves; they are examples of use,
  not part of the component.

Notes on the model:

- The percentage thresholds are exact real arithmetic, and each is proved equal to an integer
  cross-multiplication such as `remaining * 100 <= 20 * total`.
- The progress bar uses "elapsed at least 80 / 50 percent" and the digits use "remaining at most
  20 / 50 percent". These breakpoints are exact complements, so `Display.ProgressTier` is proved
  equal to `Display.RemainingTier`: in exact arithmetic the bar and the digits always change
  colour on the same second. Only the rounding of the source's double-precision percentages
  could separate them at a boundary.
- The reconfiguration test `newMinutes !== totalSeconds / 60` is modelled as
  `minutes * 60 != totalSeconds`. The two agree because every reachable total is a whole number
  of minutes (part of `Timer.Valid`).
- The query-parameter effect lists `searchParams`, `timer.totalSeconds` and `timer.isRunning`
  as its dependencies, so it runs not only when the address changes but also after every update
  that stops, starts or reconfigures the timer. The model re-runs it after each handler
  (`Timer.Settle`). A `time` change that arrives while running is therefore not dropped: it takes
  effect at the next stop. A pause or reset then gives a fresh configuration, not the paused
  progress, and the tick that reaches zero rings the bell and is at once replaced by an idle
  fresh configuration (`Timer.PauseAppliesDeferredQuery`, `Timer.RunOutcome`).
- A tick is modelled as a total function. When `isRunning && remainingSeconds > 0` fails, no
  interval is installed and a tick changes nothing.
- The preset and custom-duration handlers require that the timer is not running, because their
  controls are disabled while it runs. Start/pause has no such requirement: its own guard makes
  it inert once finished, and the model keeps that guard.

## Model

| member | source | states |
|---|---|---|
| `JsNumber.TrimStart` | src/components/PresentationTimer.tsx:30 | parseInt's first step: the result is a suffix of the input, everything removed is white space, and the result does not start with white space |
| `JsNumber.LeadingDigits` | src/components/PresentationTimer.tsx:211 | the longest prefix of decimal digits: all digits, and followed by the end or by a non-digit |
| `JsNumber.DecimalText` | src/components/PresentationTimer.tsx:41 | `minutes.toString()`: a non-empty run of digits whose value is the number, with no leading zero, one digit exactly below 10 and at most two below 100 |
| `JsNumber.ParseIntOfParts` | src/components/PresentationTimer.tsx:30 | every string of the form white space, optional sign, digits, then a non-digit or the end parses to the signed value of the digits; the text after the digits is ignored |
| `JsNumber.ParseIntOfNoDigits` | src/components/PresentationTimer.tsx:211 | white space and an optional sign followed by no digit parse to NaN |
| `JsNumber.ParseIntOfDecimalText` | src/components/PresentationTimer.tsx:41 | round trip: parsing the decimal text of n gives back n |
| `Timer.PhaseOf` | src/components/PresentationTimer.tsx:6-11 | in a valid state the phase is Running exactly when `isRunning`, Finished exactly when `isFinished`, and Finished exactly when nothing remains, so running and finished never hold together |
| `Timer.Configured` | src/components/PresentationTimer.tsx:197-204 | a fresh configuration of m minutes has total = remaining = 60m; for m in 1..99 it is valid and idle |
| `Timer.ParseMinutes` | src/components/PresentationTimer.tsx:211-212 | accepts exactly the texts whose parseInt is a number in 1..99, and then returns that number |
| `Timer.InitialMinutes` | src/components/PresentationTimer.tsx:27-36 | the result is always in 1..99; a result other than 10 comes only from a parameter that parses into range; such a parameter is always used |
| `Timer.InitialMinutesOfWrittenText` | src/components/PresentationTimer.tsx:39-43 | for m in 1..99, reading back the text `updateURL(m)` writes gives m |
| `Timer.InitialMinutesAccepts` | src/components/PresentationTimer.tsx:28-32 | no parameter gives 10 minutes; `time=7` gives 7 |
| `Timer.InitialMinutesRejects` | src/components/PresentationTimer.tsx:31-35 | `time=150`, `time=abc` and `time=0` fall back to 10 |
| `Timer.InitialMinutesIgnoresSurroundings` | src/components/PresentationTimer.tsx:30 | `time= 05 min` gives 5: leading white space, leading zeros and trailing text are ignored |
| `Timer.Initial` | src/components/PresentationTimer.tsx:45-53 | the mount state is valid and idle, with total = remaining = 60 times the initial minutes |
| `Timer.Tick` | src/components/PresentationTimer.tsx:129-145 | keeps the total and the invariant; from Running with r seconds it leaves r-1, Finished if that is 0 and still Running otherwise; outside Running it changes nothing |
| `Timer.TickAlert` | src/components/PresentationTimer.tsx:132-138 | in a valid state the tick calls the bell exactly when it takes the timer from a non-finished phase into Finished |
| `Timer.Toggle` | src/components/PresentationTimer.tsx:181-184 | keeps the invariant and both counts of seconds; Idle becomes Running, Running becomes Idle, and Finished is left unchanged |
| `Timer.Reset` | src/components/PresentationTimer.tsx:187-194 | keeps the total, restores remaining to it, and gives a valid Idle state |
| `Timer.ResetIdempotent` | src/components/PresentationTimer.tsx:187-194 | resetting twice gives the same state as resetting once |
| `Timer.ApplyCustom` | src/components/PresentationTimer.tsx:210-220 | keeps the invariant; rejected text leaves the state unchanged; accepted text m gives an Idle state with total = remaining = 60m |
| `Timer.ApplyCustomOfDigits` | src/components/PresentationTimer.tsx:211-212 | custom text whose leading digits spell a value in 1..99 sets that many minutes |
| `Timer.ApplyCustomReadsLeadingDigits` | src/components/PresentationTimer.tsx:211 | the custom texts `5.9` and `1e2` set 5 and 1 minutes |
| `Timer.ApplyCustomRejects` | src/components/PresentationTimer.tsx:212 | the empty custom text and `100` leave the state unchanged |
| `Timer.QueryChange` | src/components/PresentationTimer.tsx:58-71 | keeps the invariant; while running, or when the parameter's minutes already match the total, nothing changes, including paused progress; otherwise the total follows the parameter and the timer is Idle at full time |
| `Timer.WrittenTextIsNoOp` | src/components/PresentationTimer.tsx:62 | the query change caused by writing m to the address leaves a timer configured to m untouched |
| `Timer.Settle` | src/components/PresentationTimer.tsx:58-71 | the effect re-run after an update keeps the invariant; it changes nothing when neither `isRunning` nor the total changed, or when the address already names the total; otherwise, when the updated timer is stopped, it is replaced by the fresh Idle configuration the address names, and when it is still running it is left as it is |
| `Timer.Step` | src/components/PresentationTimer.tsx:130-147 | an interval firing followed by the effect it re-triggers is a plain tick whenever the address names the configured duration |
| `Timer.PauseAppliesDeferredQuery` | src/components/PresentationTimer.tsx:71 | from Running with an address naming a different duration, a pause or a reset gives the fresh configuration the address names, discarding the remaining time |
| `Timer.RunOutcome` | src/components/PresentationTimer.tsx:126-153 | n ticks from Running with r seconds left give r-n seconds, same total and no bell while n < r; for n >= r exactly one bell, ending Finished at 0 when the address matches the total and as the address's fresh configuration otherwise; from Idle or Finished they change nothing and ring nothing |
| `Timer.AlertFiresOnce` | src/components/PresentationTimer.tsx:136-138 | no run of ticks rings the bell more than once; r ticks from Running with r seconds ring exactly once, not r, and end Finished when the address matches |
| `Display.RemainingTier` | src/components/PresentationTimer.tsx:156-160 | the finished tier exactly when finished; otherwise red exactly when remaining is at most 20 percent and green exactly when it is above 50 percent |
| `Display.ProgressTier` | src/components/PresentationTimer.tsx:254-257 | the progress bar's elapsed-percentage tier always equals the digits' remaining-percentage tier |
| `Display.TimeColor` | src/components/PresentationTimer.tsx:156-162 | `text-red-600` exactly when finished; otherwise `text-red-500` exactly at most 20 percent remaining, `text-yellow-500` above 20 and at most 50 percent, and `text-green-500` exactly above 50 percent |
| `Display.BackgroundColor` | src/components/PresentationTimer.tsx:165-171 | `bg-red-100` exactly when finished; otherwise `bg-red-50` exactly at most 20 percent remaining, `bg-yellow-50` above 20 and at most 50 percent, and `bg-green-50` exactly above 50 percent |
| `Display.ProgressColor` | src/components/PresentationTimer.tsx:254-258 | `bg-red-500` exactly when finished; otherwise `bg-red-400` exactly at most 20 percent remaining, `bg-yellow-400` above 20 and at most 50 percent, and `bg-green-400` exactly above 50 percent |
| `Display.ProgressWidth` | src/components/PresentationTimer.tsx:259 | never above 100; for a valid state it is the elapsed percentage, 100 times elapsed over total, so at least 0 and 100 exactly when no time remains |
| `Display.PadStart` | src/components/PresentationTimer.tsx:177 | `padStart`: the result has the target width (or the text's own length), ends with the text, and is fill before it |
| `Display.FormatTime` | src/components/PresentationTimer.tsx:174-178 | up to 99 minutes the text is 5 characters `DD:DD`; the seconds field is below 60, and minutes times 60 plus seconds gives back the input |
| `Component.PresentationTimer.constructor` | src/components/PresentationTimer.tsx:45-55 | mount: the initial state from the query parameter, which the address then matches; custom text equal to its minutes, sound on, no bell requested |
| `Component.PresentationTimer.RerunQueryEffect` | src/components/PresentationTimer.tsx:58-71 | the effect after an update from a given previous state: applies `Timer.Settle`, and the custom text becomes the address's minutes exactly when the timer was reconfigured |
| `Component.PresentationTimer.PlayBell` | src/components/PresentationTimer.tsx:74-75 | a bell request is counted only when sound is enabled |
| `Component.PresentationTimer.ToggleSound` | src/components/PresentationTimer.tsx:343 | flips the sound switch |
| `Component.PresentationTimer.Tick` | src/components/PresentationTimer.tsx:130-147 | applies `Timer.Step` (a plain `Timer.Tick` when the address matches the total), keeps the invariant, and counts one bell request exactly when sound is on and the tick finishes the countdown; the custom text is kept when the result is a plain tick and becomes the address's minutes otherwise |
| `Component.PresentationTimer.RunTicks` | src/components/PresentationTimer.tsx:126-153 | n interval firings give `Timer.Run` of the old state under the current address and add `Timer.Alerts` bell requests when sound is on, and none when it is off; when the address matched at the start it still matches and the custom text is unchanged; the custom text changes only when the run changed the total (the expiring tick reconfigured the timer to a stale address), and then it is the address's minutes, which the timer then matches |
| `Component.PresentationTimer.Toggle` | src/components/PresentationTimer.tsx:181-184 | applies `Timer.Toggle` and then the effect re-run; a plain `Timer.Toggle` when the address matches the total; keeps the invariant; the custom text is kept when the result is a plain toggle and becomes the address's minutes otherwise |
| `Component.PresentationTimer.Reset` | src/components/PresentationTimer.tsx:187-194 | applies `Timer.Reset` and then the effect re-run; a plain `Timer.Reset` when the address matches; the timer is valid and Idle; the custom text is kept when the result is a plain reset and becomes the address's minutes otherwise |
| `Component.PresentationTimer.SetPreset` | src/components/PresentationTimer.tsx:197-207 | the timer is a fresh Idle configuration of the preset; the custom text and the address's `time` text are its decimal form, so the effect that follows changes nothing |
| `Component.PresentationTimer.EditCustomMinutes` | src/components/PresentationTimer.tsx:323 | the custom text becomes what was typed |
| `Component.PresentationTimer.SetCustom` | src/components/PresentationTimer.tsx:210-222 | applies `Timer.ApplyCustom` to the custom text and leaves the text alone; writes the accepted minutes to the address, so the effect that follows changes nothing, and writes nothing on rejection |
| `Component.PresentationTimer.OnQueryChange` | src/components/PresentationTimer.tsx:58-71 | stores the new parameter and applies `Timer.QueryChange`; while stopped the timer then matches the address; the custom text becomes the new minutes exactly when the timer was reconfigured |

## Left out

- Bell synthesis (src/components/PresentationTimer.tsx:79-114) and the vibration fallback (:116-121): the oscillators, gain envelopes and delays are floating-point timing over browser APIs, so a bell is an abstract request counted in `alertRequests`.
- The lifecycle of `setInterval`/`clearInterval` and React's render batching (:126-153): a tick is a discrete call, and no tick arrives while the :129 guard is false. The effect re-runs right after the handler that changed its dependencies. A pending tick racing a pause is not modelled.
- `router.replace` and `URLSearchParams` (:40-42): the write lands in `timeParam` at once. A render in which the effect still sees the old address after a preset or custom value is not modelled. If one occurs, that run of the effect resets the timer to the old duration, and the run that sees the new address restores the new one. Both runs also rewrite the custom text (:69): after `setCustomTime` with `5.9` it would end as `5` rather than as typed, while `Component.PresentationTimer.SetCustom` keeps the typed text.
- The clipboard copy (:370-377) and the full-screen request (:392-395): both are browser I/O outside the timer state.
- IEEE-754 doubles: percentages are exact reals, so a boundary comparison such as exactly 20 percent remaining may differ from the double-precision result.
- `JsNumber.ParseInt` does not round digit runs of more than 15 or 16 digits to a double. This cannot change whether a value is in 1..99.
- `JsNumber.ParseInt` returns 0 for `-0`. Every use here rejects both zeros alike.
- `JsNumber.DecimalText` is `toString()` only for non-negative safe integers (below 2^53); above that, JavaScript prints the shortest digits that round-trip and pads them with zeros. The model uses it for 0..99 only.
- The "configured minutes" label (:244) and the rest of the JSX markup and styling: these are presentation only. The disabled-button attributes at :305, :324 and :330 appear only as preconditions. The start/pause button's disabled attribute (:275) is not a precondition: `Component.PresentationTimer.Toggle` accepts a finished timer, and its early return (:182) leaves the timer unchanged.
- The test-bell button (:353) is `PlayBell`; its disabled state is not a precondition, since `PlayBell` checks the sound switch itself.
- src/app/page.tsx is not part of this model: it only wraps the component in `Suspense`.

=== FILE: Component.dfy ===
/**
  The `PresentationTimer` component's mutable state and its handlers. Each handler applies the
  corresponding pure update from `Timer` to the `timer` field, as the component does through
  `setTimer`, and then the query-parameter effect runs again when one of the values it depends
  on (the address, `totalSeconds`, `isRunning`) has changed. A ghost counter records how many
  times the bell was requested with sound on.
*/
module Component {
  import opened Wrappers
  import opened JsNumber
  import opened Timer

  class PresentationTimer {
    var timer: TimerState
    /** The text in the custom-minutes input. */
    var customMinutes: string
    var soundEnabled: bool
    /** The `time` parameter of the current address, as the component reads it. */
    var timeParam: Option<string>
    /** Bell requests that got past the `soundEnabled` check. */
    ghost var alertRequests: nat

    ghost predicate Valid()
      reads this
    {
      Timer.Valid(timer)
    }

    /** The configured duration is the one the address names. */
    ghost predicate Synced()
      reads this
    {
      Timer.Synced(timer, timeParam)
    }

    /** Mount: the duration comes from the `time` query parameter; sound starts enabled. The
        effect's first run finds the timer already configured to the address. */
    constructor (param: Option<string>)
      ensures Valid() && Synced() && PhaseOf(timer) == Idle
      ensures timer == Initial(param) && timeParam == param
      ensures customMinutes == DecimalText(InitialMinutes(param))
      ensures soundEnabled && alertRequests == 0
    {
      var minutes := InitialMinutes(param);
      timer := Configured(minutes);
      customMinutes := DecimalText(minutes);
      soundEnabled := true;
      timeParam := param;
      alertRequests := 0;
    }

    /** The body of the query-parameter effect, run after an update that took the timer from
        `before` to its current value. */
    method RerunQueryEffect(before: TimerState)
      requires Valid()
      modifies this`timer, this`customMinutes
      ensures Valid()
      ensures timer == Timer.Settle(before, old(timer), timeParam)
      ensures customMinutes == if timer == old(timer) then old(customMinutes)
                               else DecimalText(InitialMinutes(timeParam))
    {
      if timer.isRunning != before.isRunning || timer.totalSeconds != before.totalSeconds {
        var minutes := InitialMinutes(timeParam);
        if minutes * 60 != timer.totalSeconds && !timer.isRunning {
          timer := Configured(minutes);
          customMinutes := DecimalText(minutes);
        }
      }
    }

    /** `playBellSound`: a no-op when sound is off. The synthesis itself is not modelled. */
    method PlayBell()
      modifies this`alertRequests
      ensures alertRequests == old(alertRequests) + (if soundEnabled then 1 else 0)
    {
      if !soundEnabled {
        return;
      }
      alertRequests := alertRequests + 1;
    }

    /** The sound on/off button. */
    method ToggleSound()
      modifies this`soundEnabled
      ensures soundEnabled == !old(soundEnabled)
    {
      soundEnabled := !soundEnabled;
    }

    /** One firing of the interval: count down, ring when the countdown reaches zero, and let the
        effect see the stop. */
    method Tick()
      requires Valid()
      modifies this`timer, this`customMinutes, this`alertRequests
      ensures Valid()
      ensures timer == Step(old(timer), timeParam)
      ensures old(Synced()) ==> timer == Timer.Tick(old(timer)) && Synced()
      ensures customMinutes == if timer == Timer.Tick(old(timer)) then old(customMinutes)
                               else DecimalText(InitialMinutes(timeParam))
      ensures alertRequests == old(alertRequests) + (if soundEnabled && TickAlert(old(timer)) then 1 else 0)
    {
      var before := timer;
      var ring := TickAlert(timer);
      timer := Timer.Tick(timer);
      if ring {
        PlayBell();
      }
      RerunQueryEffect(before);
    }

    /** `n` consecutive firings of the interval. */
    method RunTicks(n: nat)
      requires Valid()
      modifies this`timer, this`customMinutes, this`alertRequests
      ensures Valid()
      ensures timer == Run(old(timer), timeParam, n)
      ensures alertRequests == old(alertRequests) + (if soundEnabled then Alerts(old(timer), timeParam, n) else 0)
      ensures old(Synced()) ==> Synced() && customMinutes == old(customMinutes)
      ensures customMinutes == if timer.totalSeconds == old(timer).totalSeconds then old(customMinutes)
                               else DecimalText(InitialMinutes(timeParam))
    {
      var i := 0;
      while i < n
        invariant 0 <= i <= n
        invariant Valid()
        invariant timer == Run(old(timer), timeParam, i)
        invariant alertRequests == old(alertRequests) + (if soundEnabled then Alerts(old(timer), timeParam, i) else 0)
        invariant old(Synced()) ==> Synced() && customMinutes == old(customMinutes)
        invariant timer.totalSeconds != old(timer).totalSeconds ==> Synced()
        invariant customMinutes == if timer.totalSeconds == old(timer).totalSeconds then old(customMinutes)
                                   else DecimalText(InitialMinutes(timeParam))
      {
        ghost var ran := Run(old(timer), timeParam, i);
        Tick();
        assert timer == Run(old(timer), timeParam, i + 1);
        assert Alerts(old(timer), timeParam, i + 1)
            == Alerts(old(timer), timeParam, i) + (if TickAlert(ran) then 1 else 0);
        i := i + 1;
      }
    }

    /** `toggleTimer`: the start/pause button. */
    method Toggle()
      requires Valid()
      modifies this`timer, this`customMinutes
      ensures Valid()
      ensures timer == Settle(old(timer), Timer.Toggle(old(timer)), timeParam)
      ensures old(Synced()) ==> timer == Timer.Toggle(old(timer)) && Synced()
      ensures customMinutes == if timer == Timer.Toggle(old(timer)) then old(customMinutes)
                               else DecimalText(InitialMinutes(timeParam))
    {
      if timer.isFinished {
        return;
      }
      var before := timer;
      timer := Timer.Toggle(timer);
      RerunQueryEffect(before);
    }

    /** `resetTimer`. */
    method Reset()
      requires Valid()
      modifies this`timer, this`customMinutes
      ensures Valid() && PhaseOf(timer) == Idle
      ensures timer == Settle(old(timer), Timer.Reset(old(timer)), timeParam)
      ensures old(Synced()) ==> timer == Timer.Reset(old(timer)) && Synced()
      ensures customMinutes == if timer == Timer.Reset(old(timer)) then old(customMinutes)
                               else DecimalText(InitialMinutes(timeParam))
    {
      var before := timer;
      timer := Timer.Reset(timer);
      RerunQueryEffect(before);
    }

    /** `setPresetTime`: only the preset buttons call it, and they are disabled while running.
        `updateURL` puts the minutes in the address, so the effect that follows changes nothing. */
    method SetPreset(minutes: int)
      requires Valid() && !timer.isRunning
      requires minutes in PresetMinutes
      modifies this`timer, this`customMinutes, this`timeParam
      ensures Valid() && Synced() && PhaseOf(timer) == Idle
      ensures timer == Configured(minutes)
      ensures customMinutes == DecimalText(minutes)
      ensures timeParam == Some(DecimalText(minutes))
    {
      var before := timer;
      timer := Configured(minutes);
      customMinutes := DecimalText(minutes);
      timeParam := Some(DecimalText(minutes));
      InitialMinutesOfWrittenText(minutes);
      RerunQueryEffect(before);
    }

    /** Typing in the custom-minutes input, which is disabled while running. */
    method EditCustomMinutes(text: string)
      requires !timer.isRunning
      modifies this`customMinutes
      ensures customMinutes == text
    {
      customMinutes := text;
    }

    /** `setCustomTime`: the set button, disabled while running. Rejected text changes nothing;
        accepted minutes go to the address, so the effect that follows changes nothing. */
    method SetCustom()
      requires Valid() && !timer.isRunning
      modifies this`timer, this`customMinutes, this`timeParam
      ensures Valid()
      ensures timer == ApplyCustom(old(timer), old(customMinutes))
      ensures customMinutes == old(customMinutes)
      ensures ParseMinutes(customMinutes).None? ==> timeParam == old(timeParam)
      ensures ParseMinutes(customMinutes).Some? ==>
        Synced() && timeParam == Some(DecimalText(ParseMinutes(customMinutes).value))
    {
      var parsed := ParseMinutes(customMinutes);
      if parsed.None? {
        return;
      }
      var minutes := parsed.value;
      var before := timer;
      timer := Configured(minutes);
      timeParam := Some(DecimalText(minutes));
      InitialMinutesOfWrittenText(minutes);
      RerunQueryEffect(before);
    }

    /** The address changes: the effect runs with the new `time` parameter. While running it is
        ignored for now, and applied at the next stop (see `Timer.Settle`). */
    method OnQueryChange(param: Option<string>)
      requires Valid()
      modifies this`timer, this`customMinutes, this`timeParam
      ensures Valid() && timeParam == param
      ensures timer == QueryChange(old(timer), param)
      ensures !old(timer).isRunning ==> Synced()
      ensures customMinutes == if timer == old(timer) then old(customMinutes)
                               else DecimalText(InitialMinutes(param))
    {
      timeParam := param;
      var minutes := InitialMinutes(timeParam);
      if minutes * 60 != timer.totalSeconds && !timer.isRunning {
        timer := Configured(minutes);
        customMinutes := DecimalText(minutes);
      }
    }
  }

  /** A client scenario: default load, start, and let the interval fire 600 times. The countdown
      ends finished, having requested the bell once; a further tick and a toggle change nothing. */
  method ExpiryScenario() {
    var t := new PresentationTimer(None);
    t.Toggle();
    assert PhaseOf(t.timer) == Running && t.timer.remainingSeconds == 600 && t.Synced();
    ghost var started := t.timer;
    t.RunTicks(600);
    assert PhaseOf(t.timer) == Finished && t.alertRequests == 1 && t.timer.totalSeconds == 600 by {
      RunOutcome(started, None, 600);
    }
    ghost var finished := t.timer;
    assert t.Synced();
    t.Tick();
    assert t.timer == finished && t.alertRequests == 1;
    t.Toggle();
    assert t.timer == finished && t.Synced();
    t.Reset();
    assert PhaseOf(t.timer) == Idle && t.timer.remainingSeconds == 600;
  }

  /** A client scenario: a change of the address to 5 minutes while a 10-minute countdown runs
      leaves it running; the next pause discards the paused progress for a fresh 5 minutes. */
  method DeferredQueryScenario() {
    var t := new PresentationTimer(None);
    t.Toggle();
    t.Tick();
    assert PhaseOf(t.timer) == Running && t.timer.remainingSeconds == 599;
    assert DecimalText(5) == "5";
    InitialMinutesOfWrittenText(5);
    t.OnQueryChange(Some("5"));
    assert PhaseOf(t.timer) == Running && t.timer.remainingSeconds == 599;
    t.Toggle();
    assert t.timer == Configured(5);
  }
}

=== FILE: Display.dfy ===
/**
  Values derived from the timer state on every render: the `MM:SS` text, the colour tier of
  the digits and of the page background, and the progress bar's colour and width.
  Percentages are exact reals here, not IEEE-754 doubles.
*/
module Display {
  import opened JsNumber
  import opened Timer

  /** Colour tiers shared by the digits, the background and the progress bar. */
  datatype Tier = Expired | Red | Yellow | Green

  /** `(remainingSeconds / totalSeconds) * 100`. */
  function RemainingPercent(s: TimerState): real
    requires s.totalSeconds > 0
  {
    (s.remainingSeconds as real / s.totalSeconds as real) * 100.0
  }

  /** `progressPercentage`: `((totalSeconds - remainingSeconds) / totalSeconds) * 100`. */
  function ProgressPercent(s: TimerState): real
    requires s.totalSeconds > 0
  {
    ((s.totalSeconds - s.remainingSeconds) as real / s.totalSeconds as real) * 100.0
  }

  /** A percentage threshold is an integer cross-multiplication. */
  lemma PercentAtMost(part: int, whole: int, k: int)
    requires whole > 0
    ensures (part as real / whole as real) * 100.0 <= k as real <==> part * 100 <= k * whole
  {
    var q := part as real / whole as real;
    assert q * whole as real == part as real;
    assert (q * 100.0) * whole as real == (part * 100) as real;
    assert (k * whole) as real == k as real * whole as real;
  }

  lemma PercentAtLeast(part: int, whole: int, k: int)
    requires whole > 0
    ensures (part as real / whole as real) * 100.0 >= k as real <==> part * 100 >= k * whole
  {
    var q := part as real / whole as real;
    assert q * whole as real == part as real;
    assert (q * 100.0) * whole as real == (part * 100) as real;
    assert (k * whole) as real == k as real * whole as real;
  }

  /** The tier of `getTimeColor` and `getBackgroundColor`: finished first, then remaining
      at most 20 percent, then at most 50 percent. */
  function RemainingTier(s: TimerState): (r: Tier)
    requires s.totalSeconds > 0
    ensures r == Expired <==> s.isFinished
    ensures !s.isFinished ==> (r == Red <==> s.remainingSeconds * 100 <= 20 * s.totalSeconds)
    ensures !s.isFinished ==> (r == Green <==> s.remainingSeconds * 100 > 50 * s.totalSeconds)
  {
    PercentAtMost(s.remainingSeconds, s.totalSeconds, 20);
    PercentAtMost(s.remainingSeconds, s.totalSeconds, 50);
    if s.isFinished then Expired
    else if RemainingPercent(s) <= 20.0 then Red
    else if RemainingPercent(s) <= 50.0 then Yellow
    else Green
  }

  /** The progress bar's tier, on elapsed percentage at least 80 and at least 50. In exact
      arithmetic these breakpoints are the complements of 20 and 50 percent remaining, so the
      bar always shows the same tier as the digits. */
  function ProgressTier(s: TimerState): (r: Tier)
    requires s.totalSeconds > 0
    ensures r == RemainingTier(s)
  {
    PercentAtLeast(s.totalSeconds - s.remainingSeconds, s.totalSeconds, 80);
    PercentAtLeast(s.totalSeconds - s.remainingSeconds, s.totalSeconds, 50);
    if s.isFinished then Expired
    else if ProgressPercent(s) >= 80.0 then Red
    else if ProgressPercent(s) >= 50.0 then Yellow
    else Green
  }

  /** `getTimeColor`. */
  function TimeColor(s: TimerState): (c: string)
    requires s.totalSeconds > 0
    ensures c == "text-red-600" <==> s.isFinished
    ensures !s.isFinished ==> (c == "text-red-500" <==> s.remainingSeconds * 100 <= 20 * s.totalSeconds)
    ensures !s.isFinished ==> (c == "text-green-500" <==> s.remainingSeconds * 100 > 50 * s.totalSeconds)
    ensures !s.isFinished && 20 * s.totalSeconds < s.remainingSeconds * 100 <= 50 * s.totalSeconds ==>
      c == "text-yellow-500"
  {
    match RemainingTier(s)
    case Expired => "text-red-600"
    case Red => "text-red-500"
    case Yellow => "text-yellow-500"
    case Green => "text-green-500"
  }

  /** `getBackgroundColor`. */
  function BackgroundColor(s: TimerState): (c: string)
    requires s.totalSeconds > 0
    ensures c == "bg-red-100" <==> s.isFinished
    ensures !s.isFinished ==> (c == "bg-red-50" <==> s.remainingSeconds * 100 <= 20 * s.totalSeconds)
    ensures !s.isFinished ==> (c == "bg-green-50" <==> s.remainingSeconds * 100 > 50 * s.totalSeconds)
    ensures !s.isFinished && 20 * s.totalSeconds < s.remainingSeconds * 100 <= 50 * s.totalSeconds ==>
      c == "bg-yellow-50"
  {
    match RemainingTier(s)
    case Expired => "bg-red-100"
    case Red => "bg-red-50"
    case Yellow => "bg-yellow-50"
    case Green => "bg-green-50"
  }

  /** The progress bar's colour class. */
  function ProgressColor(s: TimerState): (c: string)
    requires s.totalSeconds > 0
    ensures c == "bg-red-500" <==> s.isFinished
    ensures !s.isFinished ==> (c == "bg-red-400" <==> s.remainingSeconds * 100 <= 20 * s.totalSeconds)
    ensures !s.isFinished ==> (c == "bg-green-400" <==> s.remainingSeconds * 100 > 50 * s.totalSeconds)
    ensures !s.isFinished && 20 * s.totalSeconds < s.remainingSeconds * 100 <= 50 * s.totalSeconds ==>
      c == "bg-yellow-400"
  {
    match ProgressTier(s)
    case Expired => "bg-red-500"
    case Red => "bg-red-400"
    case Yellow => "bg-yellow-400"
    case Green => "bg-green-400"
  }

  /** The bar's width, `Math.min(progressPercentage, 100)` percent: for a valid state it is the
      elapsed percentage itself, within 0..100, and full exactly when no time remains. */
  function ProgressWidth(s: TimerState): (w: real)
    requires s.totalSeconds > 0
    ensures w <= 100.0
    ensures Valid(s) ==> 0.0 <= w && (w == 100.0 <==> s.remainingSeconds == 0)
    ensures Valid(s) ==> w * s.totalSeconds as real == 100.0 * (s.totalSeconds - s.remainingSeconds) as real
  {
    var q := (s.totalSeconds - s.remainingSeconds) as real / s.totalSeconds as real;
    assert q * s.totalSeconds as real == (s.totalSeconds - s.remainingSeconds) as real;
    PercentAtMost(s.totalSeconds - s.remainingSeconds, s.totalSeconds, 99);
    PercentAtLeast(s.totalSeconds - s.remainingSeconds, s.totalSeconds, 100);
    PercentAtLeast(s.totalSeconds - s.remainingSeconds, s.totalSeconds, 0);
    var p := ProgressPercent(s);
    if p < 100.0 then p else 100.0
  }

  /** `String.prototype.padStart(width, fill)`. */
  function PadStart(t: string, width: nat, fill: char): (r: string)
    ensures |r| == if |t| >= width then |t| else width
    ensures r[|r| - |t|..] == t
    ensures forall i :: 0 <= i < |r| - |t| ==> r[i] == fill
    decreases width - |t|
  {
    if |t| >= width then t else PadStart([fill] + t, width, fill)
  }

  /** A number below 100 padded to two digits reads back as itself. */
  lemma TwoDigits(n: nat)
    requires n < 100
    ensures |PadStart(DecimalText(n), 2, '0')| == 2
    ensures AllDigits(PadStart(DecimalText(n), 2, '0'))
    ensures DigitsValue(PadStart(DecimalText(n), 2, '0')) == n
  {
    var t := DecimalText(n);
    var r := PadStart(t, 2, '0');
    if |t| == 1 {
      assert r == "0" + t;
      assert DecimalText(0) == "0";
      DigitsValueSnoc("0", t[0]);
      assert "0" + [t[0]] == r;
      assert DigitsValue(t) == DigitValue(t[0]) by {
        assert t[..0] == [];
      }
    } else {
      assert r == t;
    }
  }

  /** `formatTime`: whole minutes, a colon, then the seconds, each padded to two digits.
      Up to 99 minutes the text is five characters and its two fields give back the seconds. */
  function FormatTime(seconds: int): (r: string)
    requires seconds >= 0
    ensures 0 <= seconds <= 99 * 60 ==>
      && |r| == 5 && r[2] == ':'
      && AllDigits(r[..2]) && AllDigits(r[3..])
      && DigitsValue(r[3..]) < 60
      && DigitsValue(r[..2]) * 60 + DigitsValue(r[3..]) == seconds
  {
    var minutes, secs := seconds / 60, seconds % 60;
    var mm := PadStart(DecimalText(minutes), 2, '0');
    var ss := PadStart(DecimalText(secs), 2, '0');
    if seconds <= 99 * 60 then
      assert minutes * 60 + secs == seconds && minutes < 100 && secs < 60;
      TwoDigits(minutes);
      TwoDigits(secs);
      FieldsOf(mm, ss);
      mm + ":" + ss
    else mm + ":" + ss
  }

  lemma FieldsOf(mm: string, ss: string)
    requires |mm| == 2 && |ss| == 2
    ensures (mm + ":" + ss)[..2] == mm && (mm + ":" + ss)[3..] == ss && (mm + ":" + ss)[2] == ':'
  {
  }
}

=== FILE: JsNumber.dfy ===
/**
  The two conversions between numbers and text that the timer relies on:
  `parseInt(string, 10)` (ECMA-262, section 19.2.5) and `Number.prototype.toString()`
  on a non-negative integer. Numbers are unbounded integers here; see README for
  what that leaves out (IEEE-754 rounding of very long digit runs, negative zero).
*/
module JsNumber {
  import opened Wrappers

  /** The code points that `TrimString(_, start)` removes: WhiteSpace and LineTerminator
      (ECMA-262, sections 12.2 and 12.3; the Zs category spelled out). */
  predicate IsWhitespace(c: char) {
    c == '\t' || c == '\U{B}' || c == '\U{C}' || c == ' ' || c == '\U{A0}' || c == '\U{FEFF}'
    || c == '\U{1680}' || ('\U{2000}' <= c <= '\U{200A}') || c == '\U{202F}' || c == '\U{205F}'
    || c == '\U{3000}'
    || c == '\n' || c == '\r' || c == '\U{2028}' || c == '\U{2029}'
  }

  predicate IsDigit(c: char) {
    '0' <= c <= '9'
  }

  predicate AllDigits(s: string) {
    forall i :: 0 <= i < |s| ==> IsDigit(s[i])
  }

  predicate AllWhitespace(s: string) {
    forall i :: 0 <= i < |s| ==> IsWhitespace(s[i])
  }

  function DigitValue(c: char): (d: nat)
    requires IsDigit(c)
    ensures d < 10
  {
    (c as int) - ('0' as int)
  }

  function DigitChar(d: nat): (c: char)
    requires d < 10
    ensures IsDigit(c) && DigitValue(c) == d
  {
    ('0' as int + d) as char
  }

  /** The mathematical value of a run of decimal digits, most significant first. */
  function DigitsValue(ds: string): nat
    requires AllDigits(ds)
    decreases |ds|
  {
    if ds == [] then 0 else DigitsValue(ds[..|ds| - 1]) * 10 + DigitValue(ds[|ds| - 1])
  }

  /** Appending one digit shifts the value by one decimal place. */
  lemma DigitsValueSnoc(ds: string, c: char)
    requires AllDigits(ds) && IsDigit(c)
    ensures AllDigits(ds + [c])
    ensures DigitsValue(ds + [c]) == DigitsValue(ds) * 10 + DigitValue(c)
  {
    assert (ds + [c])[..|ds|] == ds;
  }

  /** `TrimString(s, start)`: drop the leading white space. */
  function TrimStart(s: string): (t: string)
    ensures |t| <= |s| && t == s[|s| - |t|..]
    ensures AllWhitespace(s[..|s| - |t|])
    ensures t == [] || !IsWhitespace(t[0])
  {
    if s != [] && IsWhitespace(s[0]) then TrimStart(s[1..]) else s
  }

  /** The longest prefix of `s` made of decimal digits (step 11 of parseInt for radix 10). */
  function LeadingDigits(s: string): (ds: string)
    ensures |ds| <= |s| && ds == s[..|ds|]
    ensures AllDigits(ds)
    ensures |ds| == |s| || !IsDigit(s[|ds|])
  {
    if s != [] && IsDigit(s[0]) then [s[0]] + LeadingDigits(s[1..]) else []
  }

  /** `parseInt(s, 10)`: `None` stands for NaN. */
  function ParseInt(s: string): Option<int>
  {
    ParseSigned(TrimStart(s))
  }

  /** parseInt after the white space is gone: an optional sign, then the leading digits. */
  function ParseSigned(t: string): Option<int>
  {
    if t != [] && t[0] == '-' then
      match ParseDigits(t[1..])
      case None => None
      case Some(v) => Some(-v)
    else if t != [] && t[0] == '+' then ParseDigits(t[1..])
    else ParseDigits(t)
  }

  /** The value of the leading digits of `u`, or NaN when it does not start with one. */
  function ParseDigits(u: string): Option<int>
  {
    var ds := LeadingDigits(u);
    if ds == [] then None else Some(DigitsValue(ds) as int)
  }

  /** `n.toString()` for a non-negative safe integer (below 2^53): its decimal digits, no leading zero. */
  function DecimalText(n: nat): (t: string)
    ensures t != [] && AllDigits(t)
    ensures DigitsValue(t) == n
    ensures t[0] == '0' ==> n == 0
    ensures |t| == 1 <==> n < 10
    ensures n < 100 ==> |t| <= 2
  {
    if n < 10 then [DigitChar(n)]
    else
      var t := DecimalText(n / 10) + [DigitChar(n % 10)];
      DigitsValueSnoc(DecimalText(n / 10), DigitChar(n % 10));
      t
  }

  lemma {:induction false} TrimStartSkips(w: string, x: string)
    requires AllWhitespace(w)
    requires x == [] || !IsWhitespace(x[0])
    ensures TrimStart(w + x) == x
    decreases |w|
  {
    if w == [] {
      assert w + x == x;
    } else {
      assert (w + x)[1..] == w[1..] + x;
      TrimStartSkips(w[1..], x);
    }
  }

  lemma {:induction false} LeadingDigitsStops(ds: string, rest: string)
    requires AllDigits(ds)
    requires rest == [] || !IsDigit(rest[0])
    ensures LeadingDigits(ds + rest) == ds
    decreases |ds|
  {
    if ds == [] {
      assert ds + rest == rest;
    } else {
      assert (ds + rest)[1..] == ds[1..] + rest;
      LeadingDigitsStops(ds[1..], rest);
    }
  }

  /** Every string that parses: white space, an optional sign, a maximal run of digits and
      anything that does not start with a digit. The value is the signed value of the digits;
      what follows them is ignored. */
  lemma ParseIntOfParts(w: string, sign: string, ds: string, rest: string)
    requires AllWhitespace(w)
    requires sign == "" || sign == "+" || sign == "-"
    requires ds != [] && AllDigits(ds)
    requires rest == [] || !IsDigit(rest[0])
    ensures ParseInt(w + sign + ds + rest)
         == Some(if sign == "-" then -(DigitsValue(ds) as int) else DigitsValue(ds) as int)
  {
    var x := sign + (ds + rest);
    assert w + sign + ds + rest == w + x;
    assert x[0] == if sign == "" then ds[0] else sign[0];
    TrimStartSkips(w, x);
    ParseSignedOfParts(sign, ds, rest);
  }

  lemma ParseSignedOfParts(sign: string, ds: string, rest: string)
    requires sign == "" || sign == "+" || sign == "-"
    requires ds != [] && AllDigits(ds)
    requires rest == [] || !IsDigit(rest[0])
    ensures ParseSigned(sign + (ds + rest))
         == Some(if sign == "-" then -(DigitsValue(ds) as int) else DigitsValue(ds) as int)
  {
    var u := ds + rest;
    assert ParseDigits(u) == Some(DigitsValue(ds) as int) by {
      LeadingDigitsStops(ds, rest);
    }
    if sign == "" {
      assert sign + u == u && IsDigit(u[0]);
    } else {
      ParseSignedAfterSign(sign[0], u);
      assert sign + u == [sign[0]] + u;
    }
  }

  lemma ParseSignedAfterSign(c: char, u: string)
    requires c == '+' || c == '-'
    ensures ParseSigned([c] + u) == match ParseDigits(u)
                                    case None => None
                                    case Some(v) => Some(if c == '-' then -v else v)
  {
    assert ([c] + u)[1..] == u;
  }

  /** Every string that does not parse: after white space and an optional sign comes no digit. */
  lemma ParseIntOfNoDigits(w: string, sign: string, rest: string)
    requires AllWhitespace(w)
    requires sign == "" || sign == "+" || sign == "-"
    requires rest == [] || !IsDigit(rest[0])
    requires sign == "" && rest != [] ==> !IsWhitespace(rest[0]) && rest[0] != '+' && rest[0] != '-'
    ensures ParseInt(w + sign + rest) == None
  {
    var x := sign + rest;
    assert w + sign + rest == w + x;
    TrimStartSkips(w, x);
    if sign != "" {
      assert x[1..] == rest;
    } else {
      assert x == rest;
    }
  }

  /** Round trip: `parseInt(n.toString(), 10) == n`. */
  lemma ParseIntOfDecimalText(n: nat)
    ensures ParseInt(DecimalText(n)) == Some(n)
  {
    var t := DecimalText(n);
    ParseIntOfParts("", "", t, "");
    assert "" + "" + t + "" == t;
  }
}

=== FILE: Timer.dfy ===
/**
  The countdown state of the presentation timer and the record-to-record updates the
  component applies to it (`setTimer(prev => ...)`), with the duration parsing that
  feeds them. Everything here is a pure function of the previous state.
*/
module Timer {
  import opened Wrappers
  import opened JsNumber

  /** `TimerState`: all four fields of the component's timer record. */
  datatype TimerState = TimerState(
    totalSeconds: int,
    remainingSeconds: int,
    isRunning: bool,
    isFinished: bool)

  /** The three states of the countdown as the user sees them. */
  datatype Phase = Idle | Running | Finished

  /** `PRESET_TIMES`: the minutes offered as one-click presets. */
  const PresetMinutes: seq<int> := [5, 10, 15, 20, 30]

  /** The duration used when the query parameter is missing or unusable. */
  const DefaultMinutes: int := 10

  /** The accepted range of minutes, 1 to 99 inclusive. The two call sites spell it
      `minutes > 0 && minutes <= 99` and `!(minutes < 1 || minutes > 99)`: the same test on integers. */
  predicate InRange(minutes: int) {
    0 < minutes <= 99
  }

  /** The invariant every reachable state satisfies. */
  predicate Valid(s: TimerState) {
    && s.totalSeconds > 0
    && s.totalSeconds % 60 == 0
    && s.totalSeconds <= 99 * 60
    && 0 <= s.remainingSeconds <= s.totalSeconds
    && (s.isFinished <==> s.remainingSeconds == 0)
    && (s.isRunning ==> s.remainingSeconds > 0)
  }

  /** Finished takes precedence; in a valid state running and finished never hold together. */
  function PhaseOf(s: TimerState): (p: Phase)
    ensures Valid(s) ==> (p == Running <==> s.isRunning) && (p == Finished <==> s.isFinished)
    ensures Valid(s) ==> (p == Finished <==> s.remainingSeconds == 0)
  {
    if s.isFinished then Finished else if s.isRunning then Running else Idle
  }

  /** The fresh state written on mount, by a preset, a custom value or a query change. */
  function Configured(minutes: int): (s: TimerState)
    ensures s.totalSeconds == s.remainingSeconds == 60 * minutes
    ensures InRange(minutes) ==> Valid(s) && PhaseOf(s) == Idle
  {
    TimerState(minutes * 60, minutes * 60, false, false)
  }

  // ---------------------------------------------------------------- durations

  /** `parseInt(text, 10)` followed by the 1..99 range check; `None` means rejected. */
  function ParseMinutes(text: string): (r: Option<int>)
    ensures r.Some? ==> InRange(r.value) && ParseInt(text) == r
    ensures r.None? ==> ParseInt(text).None? || !InRange(ParseInt(text).value)
  {
    match ParseInt(text)
    case Some(m) => if InRange(m) then Some(m) else None
    case None => None
  }

  /** `getInitialMinutes`: the minutes named by the `time` query parameter, or the default. */
  function InitialMinutes(timeParam: Option<string>): (m: int)
    ensures InRange(m)
    ensures m != DefaultMinutes ==> timeParam.Some? && ParseMinutes(timeParam.value) == Some(m)
    ensures timeParam.Some? && ParseMinutes(timeParam.value).Some? ==> m == ParseMinutes(timeParam.value).value
  {
    match timeParam
    case None => DefaultMinutes
    case Some(text) =>
      if text == [] then DefaultMinutes
      else
        match ParseMinutes(text)
        case Some(m) => m
        case None => DefaultMinutes
  }

  /** Round trip through the address: the text `updateURL(m)` writes is read back as `m`. */
  lemma InitialMinutesOfWrittenText(m: int)
    requires InRange(m)
    ensures InitialMinutes(Some(DecimalText(m))) == m
  {
    ParseIntOfDecimalText(m);
  }

  /** Loading with no parameter or with `time=7` configures ten and seven minutes. */
  lemma InitialMinutesAccepts()
    ensures InitialMinutes(None) == 10
    ensures InitialMinutes(Some("7")) == 7
  {
    assert DecimalText(7) == "7";
    InitialMinutesOfWrittenText(7);
  }

  /** `time=150`, `time=abc` and `time=0` fall back to ten minutes. */
  lemma InitialMinutesRejects()
    ensures InitialMinutes(Some("150")) == 10
    ensures InitialMinutes(Some("abc")) == 10
    ensures InitialMinutes(Some("0")) == 10
  {
    assert DecimalText(15) == "15";
    assert DecimalText(150) == DecimalText(15) + "0" == "150";
    ParseIntOfDecimalText(150);
    assert "" + "" + "abc" == "abc";
    ParseIntOfNoDigits("", "", "abc");
    assert DecimalText(0) == "0";
    ParseIntOfDecimalText(0);
  }

  /** Leading white space and trailing text around the digits are ignored, as by `parseInt`. */
  lemma InitialMinutesIgnoresSurroundings()
    ensures InitialMinutes(Some(" 05 min")) == 5
  {
    assert ParseInt(" 05 min") == Some(5) by {
      assert DigitsValue("05") == 5 by {
        assert DecimalText(0) == "0";
        DigitsValueSnoc("0", '5');
        assert "0" + ['5'] == "05";
      }
      assert AllWhitespace(" ") && AllDigits("05") && !IsDigit(" min"[0]);
      assert " " + "" + "05" + " min" == " 05 min";
      ParseIntOfParts(" ", "", "05", " min");
    }
  }

  /** The state created on mount. */
  function Initial(timeParam: Option<string>): (s: TimerState)
    ensures Valid(s) && PhaseOf(s) == Idle
    ensures s.totalSeconds == s.remainingSeconds == 60 * InitialMinutes(timeParam)
  {
    Configured(InitialMinutes(timeParam))
  }

  // ---------------------------------------------------------------- the countdown

  /** An interval is installed only while this holds; otherwise no tick arrives. */
  predicate Ticking(s: TimerState) {
    s.isRunning && s.remainingSeconds > 0
  }

  /** One firing of the one-second interval. */
  function Tick(s: TimerState): (t: TimerState)
    ensures t.totalSeconds == s.totalSeconds
    ensures Valid(s) ==> Valid(t)
    ensures Valid(s) && PhaseOf(s) != Running ==> t == s
    ensures Valid(s) && PhaseOf(s) == Running ==>
      && t.remainingSeconds == s.remainingSeconds - 1
      && PhaseOf(t) == (if t.remainingSeconds == 0 then Finished else Running)
  {
    if Ticking(s) then
      var remaining := s.remainingSeconds - 1;
      s.(remainingSeconds := remaining, isFinished := remaining == 0, isRunning := remaining > 0)
    else s
  }

  /** Whether a tick calls `playBellSound`: the new remaining is zero and the old state was not finished. */
  function TickAlert(s: TimerState): (fires: bool)
    ensures Valid(s) ==> (fires <==> PhaseOf(s) != Finished && PhaseOf(Tick(s)) == Finished)
  {
    Ticking(s) && s.remainingSeconds - 1 == 0 && !s.isFinished
  }

  // ---------------------------------------------------------------- user actions

  /** `toggleTimer`: start or pause, inert once finished. */
  function Toggle(s: TimerState): (t: TimerState)
    ensures Valid(s) ==> Valid(t)
    ensures t.totalSeconds == s.totalSeconds && t.remainingSeconds == s.remainingSeconds
    ensures Valid(s) ==> PhaseOf(t) == match PhaseOf(s)
                                       case Idle => Running
                                       case Running => Idle
                                       case Finished => Finished
    ensures s.isFinished ==> t == s
  {
    if s.isFinished then s else s.(isRunning := !s.isRunning)
  }

  /** `resetTimer`: back to the full configured duration, stopped. */
  function Reset(s: TimerState): (t: TimerState)
    ensures Valid(s) ==> Valid(t) && PhaseOf(t) == Idle
    ensures t.totalSeconds == s.totalSeconds && t.remainingSeconds == s.totalSeconds
  {
    s.(remainingSeconds := s.totalSeconds, isRunning := false, isFinished := false)
  }

  /** Resetting twice is resetting once. */
  lemma ResetIdempotent(s: TimerState)
    ensures Reset(Reset(s)) == Reset(s)
  {
  }

  /** `setCustomTime` on the timer: a text that parses to minutes in 1..99 reconfigures,
      anything else leaves the state as it was. */
  function ApplyCustom(s: TimerState, text: string): (t: TimerState)
    ensures Valid(s) ==> Valid(t)
    ensures ParseMinutes(text).None? ==> t == s
    ensures ParseMinutes(text).Some? ==>
      && PhaseOf(t) == Idle
      && t.totalSeconds == t.remainingSeconds == 60 * ParseMinutes(text).value
  {
    match ParseMinutes(text)
    case Some(m) => Configured(m)
    case None => s
  }

  /** A custom text of digits `ds` followed by something that is not a digit sets the minutes
      the digits spell, when those are in range. */
  lemma ApplyCustomOfDigits(s: TimerState, ds: string, rest: string)
    requires ds != [] && AllDigits(ds) && InRange(DigitsValue(ds))
    requires rest == [] || !IsDigit(rest[0])
    ensures ApplyCustom(s, ds + rest) == Configured(DigitsValue(ds))
  {
    assert "" + "" + ds + rest == ds + rest;
    ParseIntOfParts("", "", ds, rest);
  }

  /** Custom text as `parseInt` reads it: `"5.9"` sets five minutes and `"1e2"` one minute,
      because only the leading digits count. */
  lemma ApplyCustomReadsLeadingDigits(s: TimerState)
    ensures ApplyCustom(s, "5.9") == Configured(5)
    ensures ApplyCustom(s, "1e2") == Configured(1)
  {
    assert DecimalText(5) == "5" && DecimalText(1) == "1";
    assert "5" + ".9" == "5.9" && "1" + "e2" == "1e2";
    ApplyCustomOfDigits(s, "5", ".9");
    ApplyCustomOfDigits(s, "1", "e2");
  }

  /** An empty custom text and `"100"` are rejected and leave the timer as it was. */
  lemma ApplyCustomRejects(s: TimerState)
    ensures ApplyCustom(s, "") == s
    ensures ApplyCustom(s, "100") == s
  {
    assert ParseMinutes("") == None by {
      assert "" + "" + "" == "";
      ParseIntOfNoDigits("", "", "");
    }
    assert ParseMinutes("100") == None by {
      assert DecimalText(10) == "10";
      assert DecimalText(100) == DecimalText(10) + "0" == "100";
      ParseIntOfDecimalText(100);
    }
  }

  /** The query-parameter effect: ignored while running or when the minutes already match
      (`newMinutes !== totalSeconds / 60`, exact here because totals are whole minutes);
      otherwise a fresh configuration. */
  function QueryChange(s: TimerState, timeParam: Option<string>): (t: TimerState)
    ensures Valid(s) ==> Valid(t)
    ensures s.isRunning ==> t == s
    ensures 60 * InitialMinutes(timeParam) == s.totalSeconds ==> t == s
    ensures !s.isRunning ==> t.totalSeconds == 60 * InitialMinutes(timeParam)
    ensures t != s ==> PhaseOf(t) == Idle && t.remainingSeconds == t.totalSeconds
  {
    var minutes := InitialMinutes(timeParam);
    if minutes * 60 != s.totalSeconds && !s.isRunning then Configured(minutes) else s
  }

  /** After a preset or custom value of `m` minutes is written to the address, the query
      change it causes leaves the timer alone, paused progress included. */
  lemma WrittenTextIsNoOp(s: TimerState, m: int)
    requires InRange(m) && s.totalSeconds == 60 * m
    ensures QueryChange(s, Some(DecimalText(m))) == s
  {
    InitialMinutesOfWrittenText(m);
  }

  // ---------------------------------------------------------------- the effect re-running

  /** Whether the configured duration is the one the `time` parameter names. */
  predicate Synced(s: TimerState, timeParam: Option<string>) {
    60 * InitialMinutes(timeParam) == s.totalSeconds
  }

  /** The query-parameter effect depends on `timer.totalSeconds` and `timer.isRunning` as well as
      on the address, so after an update that changes either it runs again against the current
      address. A parameter change that arrived while running therefore takes effect at the next
      stop: a pause, a reset or the tick that reaches zero. */
  function Settle(before: TimerState, after: TimerState, timeParam: Option<string>): (t: TimerState)
    ensures Valid(after) ==> Valid(t)
    ensures after.isRunning == before.isRunning && after.totalSeconds == before.totalSeconds ==> t == after
    ensures Synced(after, timeParam) ==> t == after
    ensures Synced(t, timeParam) || t == after
    ensures t != after ==> !after.isRunning && PhaseOf(t) == Idle && t.remainingSeconds == t.totalSeconds
    ensures var changed := after.isRunning != before.isRunning || after.totalSeconds != before.totalSeconds;
      changed && !after.isRunning && !Synced(after, timeParam) ==> t == Configured(InitialMinutes(timeParam))
  {
    if after.isRunning != before.isRunning || after.totalSeconds != before.totalSeconds
    then QueryChange(after, timeParam)
    else after
  }

  /** One firing of the interval followed by the effect it may re-trigger. */
  function Step(s: TimerState, timeParam: Option<string>): (t: TimerState)
    ensures Synced(s, timeParam) ==> t == Tick(s)
  {
    Settle(s, Tick(s), timeParam)
  }

  /** A pause while the address names a different duration (a change that arrived while running)
      does not keep the paused progress: the timer is reconfigured to the address's duration. */
  lemma PauseAppliesDeferredQuery(s: TimerState, timeParam: Option<string>)
    requires Valid(s) && PhaseOf(s) == Running && !Synced(s, timeParam)
    ensures Settle(s, Toggle(s), timeParam) == Configured(InitialMinutes(timeParam))
    ensures Settle(s, Reset(s), timeParam) == Configured(InitialMinutes(timeParam))
  {
  }

  /** The state after `n` consecutive firings of the interval, with `timeParam` in the address. */
  function Run(s: TimerState, timeParam: Option<string>, n: nat): TimerState
  {
    if n == 0 then s else Step(Run(s, timeParam, n - 1), timeParam)
  }

  /** How many of those `n` firings call `playBellSound`. */
  function Alerts(s: TimerState, timeParam: Option<string>, n: nat): nat
  {
    if n == 0 then 0
    else Alerts(s, timeParam, n - 1) + (if TickAlert(Run(s, timeParam, n - 1)) then 1 else 0)
  }

  /** A run of ticks counts a running timer down one second at a time, stops at zero, and calls
      the bell exactly once, on the tick that reaches zero; any further ticks change nothing.
      The stopped timer is Finished when the address matches its duration; otherwise the effect
      that re-runs on stopping replaces it at once by a fresh configuration from the address. */
  lemma {:induction false} RunOutcome(s: TimerState, timeParam: Option<string>, n: nat)
    requires Valid(s)
    ensures Valid(Run(s, timeParam, n))
    ensures PhaseOf(s) != Running ==> Run(s, timeParam, n) == s && Alerts(s, timeParam, n) == 0
    ensures PhaseOf(s) == Running && n < s.remainingSeconds ==>
      && PhaseOf(Run(s, timeParam, n)) == Running
      && Run(s, timeParam, n).totalSeconds == s.totalSeconds
      && Run(s, timeParam, n).remainingSeconds == s.remainingSeconds - n
      && Alerts(s, timeParam, n) == 0
    ensures PhaseOf(s) == Running && n >= s.remainingSeconds ==>
      && Alerts(s, timeParam, n) == 1
      && (Synced(s, timeParam) ==>
            && PhaseOf(Run(s, timeParam, n)) == Finished
            && Run(s, timeParam, n).totalSeconds == s.totalSeconds
            && Run(s, timeParam, n).remainingSeconds == 0)
      && (!Synced(s, timeParam) ==> Run(s, timeParam, n) == Configured(InitialMinutes(timeParam)))
  {
    if n > 0 {
      RunOutcome(s, timeParam, n - 1);
    }
  }

  /** However many ticks arrive, the bell is called at most once; from Running with `r` seconds
      left, `r` ticks finish the countdown with exactly one call, not `r`. */
  lemma AlertFiresOnce(s: TimerState, timeParam: Option<string>)
    requires Valid(s)
    ensures forall n: nat :: Alerts(s, timeParam, n) <= 1
    ensures PhaseOf(s) == Running ==> Alerts(s, timeParam, s.remainingSeconds) == 1
    ensures PhaseOf(s) == Running && Synced(s, timeParam) ==>
      PhaseOf(Run(s, timeParam, s.remainingSeconds)) == Finished
  {
    forall n: nat ensures Alerts(s, timeParam, n) <= 1 {
      RunOutcome(s, timeParam, n);
    }
    if PhaseOf(s) == Running {
      RunOutcome(s, timeParam, s.remainingSeconds);
    }
  }
}

=== FILE: Wrappers.dfy ===
/** Optional values: the model's stand-in for JavaScript's NaN results and absent query parameters. */
module Wrappers {

  datatype Option<+T> = None | Some(value: T)
}
